=== FILE: README.md ===
# ft_transcendence core, modelled in Dafny

This project models the core logic of the ft_transcendence web application:
a two-player pong game served over sockets, with accounts, friend requests
and bearer-token authentication. The model covers:

- **The pong simulation** (`GameState`, `game_state.dfy`): one match's
  state, with the ball, two paddles, scores, games won, two player slots and
  the bounce cooldown. It covers the constructor, paddle input with clamping,
  the one-tick `update`, the re-serve, and the player-slot queries. Physics
  values are exact `real`s. Time is whole milliseconds. `Update(g, now)`
  receives the clock reading that the program takes from `Date.now()`, and
  the elapsed time is `now - lastUpdateTime` as in the program.
- **The connection registries**:
  - The chat service's user-to-socket-id map (`ChatService`,
    `chat_service.dfy`) is a sequence of entries in insertion order, because
    the program's JavaScript `Map` iterates in that order and
    `removeUserSocket` deletes only the first entry it meets.
  - The socket manager's user-to-socket map (`SocketManager`,
    `socket_manager.dfy`) is a plain Dafny map.
- **The two access guards** (`AuthGuard`, `auth_guard.dfy`): JavaScript's
  `split(' ')`, bearer-token extraction, and the allow/refuse decision for
  HTTP and WebSocket requests. `AuthGuard` and `TwoFAuthGuard` share this
  one decision function and differ only in one message. Their private
  helpers `extractTokenFromHeader` and `extractTokenFromSocket`
  have identical code in both guard files (lines 54-57 and 60-62). Each is
  modelled once, as `ExtractTokenFromHeader` and `ExtractTokenFromSocket`.
- **The user service** (`UserService`, `user_service.dfy`): the user table
  is a sequence of rows with unique ids. Where the database may answer a
  query with any matching row, the model takes the first match in sequence
  order. It covers lookups by id and by username-or-email, friend requests,
  the in-game flag and deletion.
- **Sign-in** (`AuthService`, `auth_service.dfy`).
- **The sign-up payload's validation** (`CreateUserDto`,
  `create_user_dto.dfy`).
- **The front end's Vuex session store** (`SessionStore`,
  `session_store.dfy`): its state, mutations, getters and actions.

`wrappers.dfy` defines two wrapper types:

- `Option` stands for `null`/`undefined`.
- `Result` stands for an operation that returns or throws.

The game has no win threshold, matchmaking or rating:

- After a goal the ball is served with the fixed vector `(0, 0, 0.2, 0.2)`
  and radius `0.5`.
- A paddle hit multiplies `dx` by `-1.1`, whatever part of the paddle it meets.
- Scores only ever grow.

## Model

| member | source | states |
|---|---|---|
| GameState.Init | backend/src/game/game.state.ts:17-27 | A new game satisfies the game invariant `Valid`. Its scores and games won are zero, the ball is served from the centre, and both paddles sit at their home positions (x = ∓14, y = 0, 1 × 4). It has no players: the count is 0, `isEmpty` holds and `hasPlayer` is false for every id. The cooldown is 0 and the clock starts at `now`. |
| GameState.ResetBall | backend/src/game/game.state.ts:103-105 | The ball is back on the centre spot with the fixed serve velocity `dx = dy = 0.2` and radius 0.5, inside the goal lines. No other field changes. |
| GameState.ResetBallIdempotent | backend/src/game/game.state.ts:103-105 | Example: resetting twice is the same as resetting once, and the served ball does not depend on the ball before the reset. |
| GameState.Clamp | backend/src/game/game.state.ts:31-32 | The paddle position always lies in [-13, 13]. It equals the requested y exactly when y is already in range, and saturates at the nearer bound otherwise. |
| GameState.UpdatePlayerPosition | backend/src/game/game.state.ts:29-38 | If `id` is in the first slot, only paddle 1's y changes, to the clamped value, even when both slots hold the same id. Otherwise, if `id` is in the second slot, only paddle 2's y changes. An id the game does not have changes nothing. The game invariant is kept. |
| GameState.Advance | backend/src/game/game.state.ts:45-47 | The ball moves by exactly its velocity `(dx, dy)`; velocity and radius are unchanged. |
| GameState.Decay | backend/src/game/game.state.ts:49-52 | A positive cooldown drops by exactly the elapsed time; a cooldown at or below zero stays as it is. |
| GameState.Reflect | backend/src/game/game.state.ts:55-79 | Collisions as one decision table. A positive cooldown blocks every bounce. With the cooldown expired, a wall contact flips `dy` and takes precedence over the paddles. Failing that, either paddle's contact sets `dx` to -1.1·`dx`. Each bounce sets the cooldown to 150. With no contact, nothing changes. The ball's position and radius never change. |
| GameState.AwardGoal | backend/src/game/game.state.ts:81-100 | A score changes exactly when the ball is outside the goal lines. A ball past the left line scores one for player two; otherwise a ball past the right line scores one for player one. The ball is then re-served with nothing else changed. Afterwards the ball is always inside the goal lines. |
| GameState.Update | backend/src/game/game.state.ts:41-101 | After one tick the clock is `now`. Players, paddles and games won are unchanged. The ball ends inside x ∈ [-20, 20]. A ball moved past the left line scores one for player two and is re-served. Otherwise a ball past the right line scores one for player one and is re-served. Otherwise the scores are unchanged and the ball has moved by exactly (dx, dy), whatever the elapsed time. The cooldown is either re-armed to 150 or decayed by the elapsed time. On every tick, goal or not, the cooldown is exactly the collision stage's (`Reflect`), since the goal check never touches it; with no goal the ball is the collision stage's too, so the tick inherits its at-most-one-reflection table. |
| GameState.AtMostOneReflection | backend/src/game/game.state.ts:56-79 | In one tick at most one velocity component flips. A flipped `dy` is negated, and a changed `dx` is -1.1 times the old one. Any change needs an expired cooldown and re-arms it to 150. |
| GameState.UpdatePreservesValid | backend/src/game/game.state.ts:41-105 | A tick keeps the game invariant: fixed paddle geometry, paddles within [-13, 13], radius 0.5, non-negative counters and the ball inside the goal lines. On a valid game the radius never changes. |
| GameState.UpdateScoresByOneGoal | backend/src/game/game.state.ts:82-100 | In a tick, neither score decreases and the total rises by at most one. Any score change comes with a re-served ball. |
| GameState.RunKeepsInvariants | backend/src/game/game.state.ts:41-101 | Over any sequence of ticks from a valid game: the invariant holds, players, paddles and games won never change, both scores are non-decreasing, and the total grows by at most one per tick. |
| GameState.CountTruthy | backend/src/game/game.state.ts:108 | `filter(Boolean).length` is at most the number of slots. It is zero exactly when no slot is truthy, and full exactly when every slot is truthy. Here `null` and `""` are falsy. |
| GameState.GetPlayerCount | backend/src/game/game.state.ts:107-109 | The count is 0, 1 or 2. It is 0 exactly when both slots are null or empty, and 2 exactly when both hold non-empty ids. |
| GameState.IsEmpty | backend/src/game/game.state.ts:111-113 | `isEmpty` holds exactly when neither slot holds a non-empty id. |
| GameState.HasPlayer | backend/src/game/game.state.ts:115-117 | A game that has a player with a non-empty id counts at least one player and is not empty. So an empty game can only "have" the id `""`. |
| GameState.EmptyStringSlotIsHeldButNotCounted | backend/src/game/game.state.ts:107-117 | A slot holding `""` matches `hasPlayer("")` but is not counted, so such a game is empty and still "has" that player. |
| ChatService.GetUserSocket | backend/src/chat/chat.service.ts:11-13 | The lookup is defined exactly when some entry has the user id. A defined result is the socket id of that entry. |
| ChatService.AddUserSocket | backend/src/chat/chat.service.ts:7-9 | Keys stay unique. A present user's entry is overwritten in place with the new socket id, and every other entry keeps its position and value. An absent user is appended at the end. |
| ChatService.RemoveUserSocket | backend/src/chat/chat.service.ts:15-22 | If no entry holds the socket id, the registry is unchanged. Otherwise exactly the first entry in iteration order holding it is removed, and the other entries stay in their order. |
| ChatService.AddThenGet | backend/src/chat/chat.service.ts:7-13 | After `addUserSocket(u, s)`, looking up u gives s and looking up any other user gives what it gave before. |
| ChatService.NeverAddedIsUndefined | backend/src/chat/chat.service.ts:11-13 | A user with no entry looks up to undefined. |
| ChatService.RemoveDeletesOnlyTheFirst | backend/src/chat/chat.service.ts:15-22 | Removal shrinks the registry by one and keeps keys unique. The removed user then looks up to undefined. Every other entry survives, including a later entry holding the same socket id, which still looks up to that id. |
| ChatService.RemoveKeepsOtherLookups | backend/src/chat/chat.service.ts:16-20 | Removing the first entry holding a socket id leaves every other user's lookup unchanged. |
| ChatService.GetIsMapLookup | backend/src/chat/chat.service.ts:5-13 | Lookup in the entry sequence is lookup in the map that the sequence stands for. |
| ChatService.AddIsMapUpdate | backend/src/chat/chat.service.ts:7-9 | As a map, `addUserSocket(u, s)` is exactly the update `[u := s]`. |
| ChatService.RemoveIsMapDeletion | backend/src/chat/chat.service.ts:15-22 | As a map, `removeUserSocket(s)` deletes exactly the key of the first entry holding s. |
| SocketManager.GetUserSocket | backend/src/socket-manager/socket-manager.service.ts:15-17 | The lookup is defined exactly when the user has a socket, and then gives that socket. |
| SocketManager.SetUserSocket | backend/src/socket-manager/socket-manager.service.ts:9-12 | The user now looks up to the new socket. The key set gains only that user, and every other user's socket is unchanged. |
| SocketManager.RemoveUserSocket | backend/src/socket-manager/socket-manager.service.ts:20-23 | The user looks up to undefined. The key set loses only that user, and the remaining sockets are unchanged. |
| SocketManager.SetKeepsOthers | backend/src/socket-manager/socket-manager.service.ts:9-17 | Setting one user's socket never changes another user's lookup. |
| SocketManager.RemoveUndoesSet | backend/src/socket-manager/socket-manager.service.ts:9-23 | Removing an absent user is a no-op. Set followed by remove, for a user absent before, restores the map. |
| SocketManager.RemoveKeepsOthers | backend/src/socket-manager/socket-manager.service.ts:20-23 | Removing one user never changes another user's lookup. |
| AuthGuard.Split | backend/src/auth/auth.guard.ts:55 | `split(' ')` returns at least one field and no field contains the separator. |
| AuthGuard.JoinSplit | backend/src/auth/auth.guard.ts:55 | Joining the fields of `split` back with the separator gives the original header. |
| AuthGuard.ExtractTokenFromHeader | backend/src/auth/auth.guard.ts:54-57 | A missing header yields undefined. A token that is found sits in a header of the shape `Bearer <token>`, followed by nothing or by a space. |
| AuthGuard.BearerFields | backend/src/auth/auth.guard.ts:55-56 | When the first two space-separated fields are `Bearer` and t, the header reads `Bearer ` then t, then ends or continues with a space. |
| AuthGuard.ExtractTokenCharacterisation | backend/src/auth/auth.guard.ts:54-57 | The header yields token t exactly when it reads `Bearer ` then t, and then either ends or continues with a space. t itself has no space. The scheme match is exact and fields after the second are ignored. |
| AuthGuard.OtherSchemesYieldNothing | backend/src/auth/auth.guard.ts:55-56 | A header not starting with `Bearer ` yields undefined. This covers other schemes, other letter cases and the bare word `Bearer`. |
| AuthGuard.RejectedSchemes | backend/src/auth/auth.2fa-guard.ts:54-57 | These give undefined: a missing header (through `?? []`), `bearer abc`, `Basic abc` and `Bearer`. |
| AuthGuard.EmptyTokens | backend/src/auth/auth.guard.ts:55-56 | `Bearer ` with a trailing space, and `Bearer  abc` with a double space, both yield the empty token. |
| AuthGuard.ExtractTokenFromSocket | backend/src/auth/auth.guard.ts:60-62 | A token is found only in a handshake whose auth object carries it. A missing handshake or a missing auth object yields undefined, as the optional chaining does. |
| AuthGuard.SocketTokenRoundTrip | backend/src/auth/auth.guard.ts:60-62 | A handshake built around a token, or around no token, reads back that token. |
| AuthGuard.Decide | backend/src/auth/auth.guard.ts:16-51 | A context that is neither HTTP nor WebSocket gets no decision. Over HTTP a falsy token is refused before verification, and a non-empty token that fails verification is refused with the default `Unauthorized` message; an HTTP request never gets a WebSocket refusal. Over WebSocket every refusal says `Unauthorized`. A request is allowed exactly when its token is non-empty and verifies, and the attached user is then the verified payload. |
| AuthGuard.AuthGuardCanActivate | backend/src/auth/auth.guard.ts:16-33 | Over HTTP, every request `AuthGuard` does not allow is refused with `UnauthorizedException` and the default `Unauthorized` message. |
| AuthGuard.TwoFactorGuardCanActivate | backend/src/auth/auth.2fa-guard.ts:16-51 | `TwoFAuthGuard` refuses a falsy HTTP token with `No JWT token in header`, and a non-empty HTTP token that fails verification with the default `Unauthorized` message. |
| AuthGuard.GuardsAgree | backend/src/auth/auth.2fa-guard.ts:21-24 | The two guards give the same decision on every request, except the message for a missing or empty HTTP token. |
| AuthGuard.RefusalWithoutVerification | backend/src/auth/auth.guard.ts:21-24 | When the token is falsy, the decision of both guards is the same whatever the verifier would have answered, so verification is never consulted. |
| AuthService.SignIn | backend/src/auth/auth.service.ts:14-32 | Every failure is `Unauthorized`, and an unknown login fails. On success some row matches the login with the given password. On success that first matching row's password equals the supplied one. The response holds exactly its id, username and email, and the token signs the claims `{sub: id, username, id}`. |
| AuthService.SignInAcceptance | backend/src/auth/auth.service.ts:18-23 | Sign-in succeeds exactly when the first row matching the login holds the supplied password. The response is then determined by that row: the token signs `{sub: id, username, id}` and the user is its id, username and email. |
| AuthService.UsernameOrEmail | backend/src/auth/auth.service.ts:18 | For any row whose username and email no other row uses as username or email, the right password signs in both by username and by email, to that row's account. |
| AuthService.FirstMatchShadows | backend/src/auth/auth.service.ts:18-21 | An earlier row matching the login with a different password makes sign-in fail, even though a later matching row has the right password. |
| UserService.GetUserById | backend/src/user/user.service.ts:93-97 | The lookup finds a row exactly when one has the id, and the row found carries that id. |
| UserService.GetUserForAuth | backend/src/user/user.service.ts:58-67 | The result is null exactly when no row's username or email equals the argument. Otherwise it is a row of the table whose username or email equals it. |
| UserService.GetUserByUsernameOrEmail | backend/src/user/user.service.ts:70-79 | This query agrees with `getUserForAuth` on every table and every argument. |
| UserService.AddUserAsFriend | backend/src/user/user.service.ts:25-56 | A zero id throws `Invalid user IDs`, and a missing target throws `Target user not found`. No other error occurs. On success the target exists. The reply is "already sent" exactly when the sender is already pending, and the table is then unchanged. The row count and id uniqueness are kept. |
| UserService.FriendRequestAppends | backend/src/user/user.service.ts:45-55 | A sent request appends the sender at the end of the target's pending list. No other column and no other row changes. |
| UserService.FriendRequestIdempotent | backend/src/user/user.service.ts:39-43 | Repeating a successful request answers "already sent" and leaves the table as the first call left it. |
| UserService.GetIsInGame | backend/src/user/user.service.ts:99-105 | The call throws `User not found` exactly when the user is missing. Otherwise it returns that user's in-game flag. |
| UserService.SetIsInGame | backend/src/user/user.service.ts:107-114 | The call fails exactly when no row has the id. Otherwise only that user's flag changes, and no other row changes. |
| UserService.SetThenGetInGame | backend/src/user/user.service.ts:99-114 | After setting the flag, reading it gives the value set, and every other user reads as before. |
| UserService.DeleteUser | backend/src/user/user.service.ts:116-126 | A missing id throws NotFound carrying that id. Otherwise the row is removed and returned: the table shrinks by one and every other row survives. With unique ids, ids stay unique and the id is then absent. |
| UserService.DeleteKeepsOrder | backend/src/user/user.service.ts:123-125 | Two surviving rows keep their relative order: if row a came before row b, the result holds them in the same order. |
| CreateUserDto.FieldViolations | backend/src/user/dto/create-user.dto.ts:5-18 | A field's violations name that field. It violates `IsString` exactly when it is not a string, and `IsNotEmpty` exactly when it is `""`. A length-checked field violates `Length` exactly when it is not a string or its length is outside [lo, hi]. The email field violates `IsEmail` exactly when it is not a string or fails the email predicate. |
| CreateUserDto.Violations | backend/src/user/dto/create-user.dto.ts:4-19 | For each of the three fields, the violations reported with that field's name are exactly the violations of that field's own decorators. |
| CreateUserDto.Accepted | backend/src/user/dto/create-user.dto.ts:4-19 | The payload is accepted exactly when all three checks pass. The username is a string of 3 to 20 characters. The email is a non-empty string satisfying the email predicate. The password is a string of 8 to 50 characters. |
| CreateUserDto.EmptyStringRejected | backend/src/user/dto/create-user.dto.ts:6-16 | An empty string in any field makes the payload rejected. |
| CreateUserDto.LengthBoundsInclusive | backend/src/user/dto/create-user.dto.ts:7-17 | Both ends of each length range are accepted, and one character outside either end is rejected. |
| SessionStore.Initial | frontend/src/store/index.js:4-11 | The store starts with both flags false, as both getters report, and with no user and no socket. |
| SessionStore.IsAuthenticated | frontend/src/store/index.js:34 | In every state the mutations keep consistent, the getter reports the same as the `isLoggedIn` flag. |
| SessionStore.IsLoggedIn | frontend/src/store/index.js:35 | In every state the mutations keep consistent, the getter reports the same as the `isAuthenticated` flag. |
| SessionStore.DoLogin | frontend/src/store/index.js:13-16 | `login` raises both flags and leaves user and socket unchanged. |
| SessionStore.DoLogout | frontend/src/store/index.js:17-25 | `logout` yields the initial state and hands the old socket, if any, to `disconnect()`. |
| SessionStore.DoSetUser | frontend/src/store/index.js:26-28 | `SET_USER` changes only the current user. |
| SessionStore.DoSetSocket | frontend/src/store/index.js:29-31 | `SET_SOCKET` changes only the socket. |
| SessionStore.Commit | frontend/src/store/index.js:12-32 | Every mutation keeps `isAuthenticated == isLoggedIn`. |
| SessionStore.ReplayConsistent | frontend/src/store/index.js:5-31 | Any history of commits keeps the two flags equal. Commits of only the user and the socket never move them. |
| SessionStore.LogIn | frontend/src/store/index.js:38-41 | Action `logIn(user)` ends with both flags true, the current user set to `user` and the socket unchanged. |
| SessionStore.LogOut | frontend/src/store/index.js:42-44 | Action `logOut` ends in the initial state with both flags false. |
| SessionStore.LogOutUndoesLogIn | frontend/src/store/index.js:37-44 | Logging out after logging in gives the initial state, the same as logging out directly. |

## Left out

- Wall-clock time: `Date.now()` is not read. The constructor and `Update` take the current time as a parameter.
- `console.log` calls: they have no effect on state.
- IEEE-754 rounding: coordinates are exact reals, so `*= -1.1` and `+= 0.2` are exact in the model.
- The commented-out second game class (backend/src/game/game.state.ts:121-230): it is not live code.
- backend/src/game/game.gateway.ts: it holds the socket plumbing and the 60 Hz timer loop. It also calls members that the live game class does not define.
- The asynchronous `Promise` plumbing: each operation is modelled as its returned value or thrown error.
- UserService.AddUserAsFriend: each service call is modelled as one atomic step on one table, and database calls other than the modelled update never fail. In the program the `findUnique` read (backend/src/user/user.service.ts:31) and the `update` write (:46-53) are separate awaited calls. Two concurrent requests can both pass the `includes` test at :40 and both push `userId`. If the target row is deleted in between, `update` throws the database's record-not-found error. So "no other error occurs" and `FriendRequestIdempotent` hold only for calls that run one after another. `deleteUser` has the same window between `findUnique` (:117) and `delete` (:123): a concurrent delete makes `delete` throw instead of returning the row.
- AuthService.SignIn: token signing is the total parameter `sign`, so a failed or rejected `signAsync` (backend/src/auth/auth.service.ts:25) is not modelled. "Every failure is `Unauthorized`" holds only when signing succeeds.
- JWT signing and verification: these are the function parameters `sign` and `verify`.
- Email syntax: `@IsEmail` is the function parameter `isEmail`.
- The guards attach the payload to the request or client object: the model returns it in `Allow(user)`.
- The WebSocket handshake token is modelled as an optional string. A non-string value there is not modelled.
- Prisma queries: the table is an in-memory sequence. Only the columns these operations use are kept (id, username, email, password, pending, isInGame).
- `setIsInGame` on a missing user: the source does not check for a missing user, and the database's update then throws. The model returns `Err(RecordNotFound)` for this case.
- `createUser` and `getAllUsers` in user.service.ts: these are not among the modelled operations. The uniqueness that `createUser` reports depends on the database schema, which is not part of this model.
- UserService.GetUserForAuth: `findFirst` without `orderBy` may return any matching row. The model takes the first matching row in sequence order, so `SignInAcceptance` and `FirstMatchShadows` hold for that choice of row, not for every order the database may use.
- JavaScript `NaN` ids: ids are integers, so only 0 is a falsy id.
- CreateUserDto.FieldViolations: for a non-string value it reports `IsString` and the field's `Length`/`IsEmail` constraint. It does not also report `IsNotEmpty` for `null`/`undefined`. The accept/reject decision is not affected.
- String lengths count Dafny characters, one per code point. `@Length` counts UTF-16 code units, minus one per surrogate pair and minus the variation selectors U+FE0E and U+FE0F. The two counts agree outside the Basic Multilingual Plane and differ on strings containing those variation selectors.
- CreateUserDto.Accepted: the global validation pipe also strips and refuses properties the DTO does not declare (`whitelist` with `forbidNonWhitelisted`, backend/src/main.ts:11-15), and transforms the payload. The model covers only the three declared fields.
- GameState.UpdatePlayerPosition: `y` is a number. The move handler passes the client's `data.y` unvalidated, so a missing or non-numeric `y` skips the clamp comparisons in the program; that case is not modelled.
- The socket's `disconnect()` side effect: `DoLogout` returns the socket to disconnect instead of calling it.
- HTTP controllers, gateways, Nest modules, the payload-size guard, the router and the type-only DTOs: they hold wiring, I/O or plain type declarations, with no logic of their own here.

=== FILE: auth_guard.dfy ===
/** The access decision shared by `AuthGuard` and `TwoFAuthGuard`.

    Both guards read a bearer token (from the HTTP `Authorization` header
    or from the WebSocket handshake), refuse a missing or empty token
    outright, and otherwise hand it to the JWT verifier. Verification is not
    modelled: it is the parameter `verify`, which yields the token's payload
    (of type `P`) or nothing when the token does not verify. The two guards
    differ only in the message of the missing-token refusal over HTTP. */
module AuthGuard {
  import opened Wrappers

  /** The part of a WebSocket handshake the guards read: `handshake.auth.token`. */
  datatype Auth = Auth(token: Option<string>)
  datatype Handshake = Handshake(auth: Option<Auth>)

  /** What `context.getType()` reports, with the request data each kind carries. */
  datatype Context =
    | Http(authorization: Option<string>)   // request.headers.authorization
    | Ws(handshake: Option<Handshake>)      // client.handshake
    | OtherKind                             // 'rpc', 'graphql', ...

  /** The outcome of `canActivate`. */
  datatype Decision<P> =
    | Allow(user: P)                  // payload attached as `user`, returns true
    | UnauthorizedHttp(message: string) // throws UnauthorizedException
    | UnauthorizedWs(message: string)   // throws WsException
    | NoDecision                        // falls off the end: resolves to undefined

  /** Default message of NestJS's `UnauthorizedException`. */
  const DefaultUnauthorized: string := "Unauthorized"
  const TwoFactorNoToken: string := "No JWT token in header"
  const WsUnauthorized: string := "Unauthorized"
  const Scheme: string := "Bearer"

  // ---------------------------------------------------------------------
  // String.prototype.split with a one-character separator

  /** The fields of `s` between occurrences of `sep`, as JavaScript's
      `split` returns them: one more field than separators, empty fields
      kept. */
  function Split(s: string, sep: char): (parts: seq<string>)
    ensures |parts| >= 1
    ensures forall i :: 0 <= i < |parts| ==> sep !in parts[i]
    decreases |s|
  {
    if |s| == 0 then [""]
    else if s[0] == sep then [""] + Split(s[1..], sep)
    else
      var rest := Split(s[1..], sep);
      [[s[0]] + rest[0]] + rest[1..]
  }

  /** `parts.join(sep)`. */
  function Join(parts: seq<string>, sep: char): string
    requires |parts| >= 1
    decreases |parts|
  {
    if |parts| == 1 then parts[0] else parts[0] + [sep] + Join(parts[1..], sep)
  }

  /** Joining the fields back gives the original string. */
  lemma {:induction false} JoinSplit(s: string, sep: char)
    ensures Join(Split(s, sep), sep) == s
    decreases |s|
  {
    if |s| > 0 {
      JoinSplit(s[1..], sep);
      var rest := Split(s[1..], sep);
      if s[0] == sep {
        assert Split(s, sep)[1..] == rest;
      } else {
        var parts := Split(s, sep);
        if |rest| == 1 {
          assert parts == [[s[0]] + rest[0]];
        } else {
          assert parts[1..] == rest[1..];
          assert Join(rest, sep) == rest[0] + [sep] + Join(rest[1..], sep);
        }
      }
    }
  }

  /** A string with no separator is one field. */
  lemma {:induction false} SplitNoSeparator(a: string, sep: char)
    requires sep !in a
    ensures Split(a, sep) == [a]
    decreases |a|
  {
    if |a| > 0 {
      assert a[0] != sep && sep !in a[1..];
      SplitNoSeparator(a[1..], sep);
      assert [a[0]] + a[1..] == a;
    }
  }

  /** A separator-free field followed by a separator splits off first. */
  lemma {:induction false} SplitFirstField(a: string, sep: char, b: string)
    requires sep !in a
    ensures Split(a + [sep] + b, sep) == [a] + Split(b, sep)
    decreases |a|
  {
    if |a| == 0 {
      assert a + [sep] + b == [sep] + b;
      assert ([sep] + b)[1..] == b;
    } else {
      SplitFirstField(a[1..], sep, b);
      assert (a + [sep] + b)[1..] == a[1..] + [sep] + b;
      assert [a[0]] + a[1..] == a;
    }
  }

  // ---------------------------------------------------------------------
  // Token extraction

  /** `extractTokenFromHeader`: the second space-separated field of the
      header when its first field is exactly `Bearer`. A missing header
      destructures `[]`, whose first field is undefined. */
  function ExtractTokenFromHeader(authorization: Option<string>): (r: Option<string>)
    ensures authorization.None? ==> r.None?
    ensures r.Some? ==> BearerShape(authorization.value, r.value)
  {
    match authorization
    case None => None
    case Some(h) =>
      var parts := Split(h, ' ');
      if parts[0] == Scheme && |parts| >= 2 then
        BearerFields(h);
        Some(parts[1])
      else None
  }

  /** The header has the shape `Bearer <token>` followed either by nothing
      or by a space and anything, with no space inside `<token>`. */
  predicate BearerShape(h: string, token: string) {
    var n := |Scheme| + 1;
    && |h| >= n + |token|
    && h[..n] == Scheme + " "
    && h[n..n + |token|] == token
    && ' ' !in token
    && (|h| == n + |token| || h[n + |token|] == ' ')
  }

  /** A header whose first two fields are `Bearer` and a token has the
      bearer shape around that token. */
  lemma BearerFields(h: string)
    requires Split(h, ' ')[0] == Scheme && |Split(h, ' ')| >= 2
    ensures BearerShape(h, Split(h, ' ')[1])
  {
    var n := |Scheme| + 1;
    var parts := Split(h, ' ');
    var token := parts[1];
    JoinSplit(h, ' ');
    assert Join(parts, ' ') == parts[0] + " " + Join(parts[1..], ' ');
    var tail := if |parts| == 2 then "" else " " + Join(parts[2..], ' ');
    assert Join(parts[1..], ' ') == token + tail;
    assert h == Scheme + " " + token + tail;
    assert h[..n] == Scheme + " ";
    assert h[n..n + |token|] == token;
  }

  /** Extraction yields `token` exactly when the header has the bearer
      shape around it: the scheme match is exact and case-sensitive, and
      fields after the token are ignored. */
  lemma ExtractTokenCharacterisation(h: string, token: string)
    ensures ExtractTokenFromHeader(Some(h)) == Some(token) <==> BearerShape(h, token)
  {
    var n := |Scheme| + 1;
    if BearerShape(h, token) {
      var rest := h[n + |token|..];
      assert h == Scheme + [' '] + h[n..];
      SplitFirstField(Scheme, ' ', h[n..]);
      if rest == [] {
        assert h[n..] == token;
        SplitNoSeparator(token, ' ');
      } else {
        assert h[n..] == token + [' '] + rest[1..];
        SplitFirstField(token, ' ', rest[1..]);
      }
    }
  }

  /** A header that does not start with `Bearer ` (another scheme, another
      case, or the bare word `Bearer`) yields no token. */
  lemma OtherSchemesYieldNothing(h: string)
    requires !(|h| > |Scheme| && h[..|Scheme| + 1] == Scheme + " ")
    ensures ExtractTokenFromHeader(Some(h)).None?
  {
  }

  /** Examples of headers that carry no bearer token. */
  lemma RejectedSchemes()
    ensures ExtractTokenFromHeader(None).None?
    ensures ExtractTokenFromHeader(Some("bearer abc")).None?
    ensures ExtractTokenFromHeader(Some("Basic abc")).None?
    ensures ExtractTokenFromHeader(Some("Bearer")).None?
  {
    assert "bearer abc"[0] != (Scheme + " ")[0];
    OtherSchemesYieldNothing("bearer abc");
    assert "Basic abc"[1] != (Scheme + " ")[1];
    OtherSchemesYieldNothing("Basic abc");
    OtherSchemesYieldNothing("Bearer");
  }

  /** Examples whose token is the empty string, which the guards refuse. */
  lemma EmptyTokens()
    ensures ExtractTokenFromHeader(Some("Bearer ")) == Some("")
    ensures ExtractTokenFromHeader(Some("Bearer  abc")) == Some("")
  {
    ExtractTokenCharacterisation("Bearer ", "");
    ExtractTokenCharacterisation("Bearer  abc", "");
  }

  /** `extractTokenFromSocket`: the handshake's auth token, read through
      optional chaining, so a missing handshake or auth object gives
      undefined. */
  function ExtractTokenFromSocket(handshake: Option<Handshake>): (r: Option<string>)
    ensures r.Some? ==> handshake == Some(Handshake(Some(Auth(r))))
    ensures handshake.None? || handshake.value.auth.None? ==> r.None?
  {
    match handshake
    case None => None
    case Some(hs) =>
      match hs.auth
      case None => None
      case Some(a) => a.token
  }

  /** A handshake carrying a token, or carrying none, reads back as it was
      built. */
  lemma SocketTokenRoundTrip(token: Option<string>)
    ensures ExtractTokenFromSocket(Some(Handshake(Some(Auth(token))))) == token
  {
  }

  /** `!token` in the program: undefined and `""` are falsy. */
  predicate Falsy(token: Option<string>) {
    token.None? || token.value == ""
  }

  // ---------------------------------------------------------------------
  // The decision

  /** `canActivate`, with the missing-token message of the HTTP branch as a
      parameter. A falsy token is refused before `verify` is consulted. */
  function Decide<P>(noTokenMessage: string, ctx: Context, verify: string -> Option<P>): (d: Decision<P>)
    ensures ctx.OtherKind? <==> d.NoDecision?
    ensures ctx.Http? ==> !d.UnauthorizedWs?
    ensures ctx.Http? && Falsy(ExtractTokenFromHeader(ctx.authorization)) ==>
      d == UnauthorizedHttp(noTokenMessage)
    ensures ctx.Http? && !Falsy(ExtractTokenFromHeader(ctx.authorization)) &&
            verify(ExtractTokenFromHeader(ctx.authorization).value).None? ==>
      d == UnauthorizedHttp(DefaultUnauthorized)
    ensures ctx.Ws? ==> (d.UnauthorizedWs? <==> !d.Allow?) && (d.UnauthorizedWs? ==> d.message == WsUnauthorized)
    ensures d.Allow? <==>
      || (ctx.Http? && !Falsy(ExtractTokenFromHeader(ctx.authorization))
                    && verify(ExtractTokenFromHeader(ctx.authorization).value).Some?)
      || (ctx.Ws? && !Falsy(ExtractTokenFromSocket(ctx.handshake))
                  && verify(ExtractTokenFromSocket(ctx.handshake).value).Some?)
    ensures d.Allow? ==>
      (ctx.Http? && d.user == verify(ExtractTokenFromHeader(ctx.authorization).value).value) ||
      (ctx.Ws? && d.user == verify(ExtractTokenFromSocket(ctx.handshake).value).value)
  {
    match ctx
    case Http(authorization) =>
      var token := ExtractTokenFromHeader(authorization);
      if Falsy(token) then UnauthorizedHttp(noTokenMessage)
      else (
        match verify(token.value)
        case Some(payload) => Allow(payload)
        case None => UnauthorizedHttp(DefaultUnauthorized))
    case Ws(handshake) =>
      var token := ExtractTokenFromSocket(handshake);
      if Falsy(token) then UnauthorizedWs(WsUnauthorized)
      else (
        match verify(token.value)
        case Some(payload) => Allow(payload)
        case None => UnauthorizedWs(WsUnauthorized))
    case OtherKind => NoDecision
  }

  /** `AuthGuard.canActivate`. */
  function AuthGuardCanActivate<P>(ctx: Context, verify: string -> Option<P>): (d: Decision<P>)
    ensures d.UnauthorizedHttp? ==> d.message == DefaultUnauthorized
    ensures ctx.Http? && !d.Allow? ==> d == UnauthorizedHttp(DefaultUnauthorized)
  {
    Decide(DefaultUnauthorized, ctx, verify)
  }

  /** `TwoFAuthGuard.canActivate`. */
  function TwoFactorGuardCanActivate<P>(ctx: Context, verify: string -> Option<P>): (d: Decision<P>)
    ensures ctx.Http? && Falsy(ExtractTokenFromHeader(ctx.authorization)) ==>
      d == UnauthorizedHttp(TwoFactorNoToken)
    ensures ctx.Http? && !Falsy(ExtractTokenFromHeader(ctx.authorization)) &&
            verify(ExtractTokenFromHeader(ctx.authorization).value).None? ==>
      d == UnauthorizedHttp(DefaultUnauthorized)
  {
    Decide(TwoFactorNoToken, ctx, verify)
  }

  /** The two guards decide alike on every request: they allow the same
      requests with the same user, and differ only in the message for a
      missing HTTP token. */
  lemma GuardsAgree<P>(ctx: Context, verify: string -> Option<P>)
    ensures ctx.Http? && Falsy(ExtractTokenFromHeader(ctx.authorization)) ==>
      AuthGuardCanActivate(ctx, verify) == UnauthorizedHttp(DefaultUnauthorized) &&
      TwoFactorGuardCanActivate(ctx, verify) == UnauthorizedHttp(TwoFactorNoToken)
    ensures !(ctx.Http? && Falsy(ExtractTokenFromHeader(ctx.authorization))) ==>
      AuthGuardCanActivate(ctx, verify) == TwoFactorGuardCanActivate(ctx, verify)
  {
  }

  /** A falsy token is refused whatever the verifier would have said. */
  lemma RefusalWithoutVerification<P>(ctx: Context, v1: string -> Option<P>, v2: string -> Option<P>)
    requires ctx.Http? ==> Falsy(ExtractTokenFromHeader(ctx.authorization))
    requires ctx.Ws? ==> Falsy(ExtractTokenFromSocket(ctx.handshake))
    ensures AuthGuardCanActivate(ctx, v1) == AuthGuardCanActivate(ctx, v2)
    ensures TwoFactorGuardCanActivate(ctx, v1) == TwoFactorGuardCanActivate(ctx, v2)
  {
  }
}

=== FILE: auth_service.dfy ===
/** Sign-in: look the login up as username or email, compare the stored
    password, and issue a token for the user. Token signing is not
    modelled: it is the parameter `sign`. */
module AuthService {
  import opened Wrappers
  import UserService

  /** The claims put into the access token. */
  datatype Payload = Payload(sub: int, username: string, id: int)

  /** The user as returned to the client: no password column. */
  datatype PublicUser = PublicUser(id: int, username: string, email: string)

  datatype SignInResponse = SignInResponse(accessToken: string, user: PublicUser)

  datatype AuthError = Unauthorized   // UnauthorizedException()

  /** `signIn(username, pass)`. */
  function SignIn(t: UserService.Table, login: string, pass: string, sign: Payload -> string)
    : (r: Result<SignInResponse, AuthError>)
    ensures r.Err? ==> r.error == Unauthorized
    ensures UserService.GetUserForAuth(t, login).None? ==> r.Err?
    ensures r.Ok? ==> exists k :: 0 <= k < |t| && UserService.MatchesLogin(t[k], login) && t[k].password == pass
    ensures r.Ok? ==> var u := UserService.GetUserForAuth(t, login).value;
      && u.password == pass
      && r.value.user == PublicUser(u.id, u.username, u.email)
      && r.value.accessToken == sign(Payload(u.id, u.username, u.id))
  {
    match UserService.GetUserForAuth(t, login)
    case None => Err(Unauthorized)
    case Some(user) =>
      if user.password != pass then Err(Unauthorized)
      else
        var payload := Payload(user.id, user.username, user.id);
        Ok(SignInResponse(sign(payload), PublicUser(user.id, user.username, user.email)))
  }

  /** Sign-in succeeds exactly when the first row matching the login holds
      the supplied password; the token's claims name that row's user. */
  lemma SignInAcceptance(t: UserService.Table, login: string, pass: string, sign: Payload -> string)
    ensures SignIn(t, login, pass, sign).Ok? <==>
      exists i :: UserService.IndexOfLogin(t, login) == Some(i) && t[i].password == pass
    ensures forall i :: UserService.IndexOfLogin(t, login) == Some(i) && t[i].password == pass ==>
      SignIn(t, login, pass, sign) ==
        Ok(SignInResponse(sign(Payload(t[i].id, t[i].username, t[i].id)),
                          PublicUser(t[i].id, t[i].username, t[i].email)))
  {
  }

  /** Either a username or an email signs in the same account, when no
      other row uses that username or email as its username or email. */
  lemma UsernameOrEmail(t: UserService.Table, u: UserService.User, sign: Payload -> string)
    requires u in t
    requires forall k :: 0 <= k < |t| && t[k] != u ==>
      !UserService.MatchesLogin(t[k], u.username) && !UserService.MatchesLogin(t[k], u.email)
    ensures SignIn(t, u.username, u.password, sign).Ok?
    ensures SignIn(t, u.email, u.password, sign).Ok?
    ensures SignIn(t, u.username, u.password, sign).value.user ==
            SignIn(t, u.email, u.password, sign).value.user ==
            PublicUser(u.id, u.username, u.email)
  {
    var k :| 0 <= k < |t| && t[k] == u;
    assert UserService.MatchesLogin(t[k], u.username) && UserService.MatchesLogin(t[k], u.email);
  }

  /** Only the first matching row is tried: an earlier row whose username or
      email equals the login shadows a later row with the right password. */
  lemma FirstMatchShadows(t: UserService.Table, login: string, pass: string, sign: Payload -> string)
    requires |t| >= 2
    requires UserService.MatchesLogin(t[0], login) && t[0].password != pass
    requires UserService.MatchesLogin(t[1], login) && t[1].password == pass
    ensures SignIn(t, login, pass, sign) == Err(Unauthorized)
  {
  }
}

=== FILE: chat_service.dfy ===
/** The chat service's registry from user id to socket id.

    The program keeps a JavaScript `Map`, which iterates in insertion order
    and keeps a key's position when its value is overwritten; the model is
    therefore a sequence of entries with distinct keys, in insertion order. */
module ChatService {
  import opened Wrappers

  datatype Entry = Entry(userId: int, socketId: string)

  type Registry = seq<Entry>

  /** Every user id appears at most once. */
  predicate KeysUnique(m: Registry) {
    forall i, j :: 0 <= i < j < |m| ==> m[i].userId != m[j].userId
  }

  /** The position of `userId`'s entry, if it has one. */
  function IndexOfUser(m: Registry, userId: int): (r: Option<nat>)
    ensures r.Some? ==> r.value < |m| && m[r.value].userId == userId
    ensures r.Some? ==> forall k :: 0 <= k < r.value ==> m[k].userId != userId
    ensures r.None? <==> forall k :: 0 <= k < |m| ==> m[k].userId != userId
  {
    if |m| == 0 then None
    else if m[0].userId == userId then Some(0)
    else match IndexOfUser(m[1..], userId)
      case None => None
      case Some(i) => Some(i + 1)
  }

  /** `getUserSocket`: the socket id stored for `userId`, or undefined. */
  function GetUserSocket(m: Registry, userId: int): (r: Option<string>)
    ensures r.Some? <==> exists k :: 0 <= k < |m| && m[k].userId == userId
    ensures r.Some? ==> Entry(userId, r.value) in m
  {
    match IndexOfUser(m, userId)
    case None => None
    case Some(i) => Some(m[i].socketId)
  }

  /** `addUserSocket`: overwrites in place when the user is present,
      otherwise appends a new entry at the end. */
  function AddUserSocket(m: Registry, userId: int, socketId: string): (r: Registry)
    ensures KeysUnique(m) ==> KeysUnique(r)
    ensures IndexOfUser(m, userId).Some? ==>
      |r| == |m| && forall k :: 0 <= k < |m| && m[k].userId != userId ==> r[k] == m[k]
    ensures IndexOfUser(m, userId).Some? ==>
      r[IndexOfUser(m, userId).value] == Entry(userId, socketId)
    ensures IndexOfUser(m, userId).None? ==> r == m + [Entry(userId, socketId)]
  {
    match IndexOfUser(m, userId)
    case Some(i) => m[i := Entry(userId, socketId)]
    case None => m + [Entry(userId, socketId)]
  }

  /** No entry carries `socketId`. */
  predicate NoEntryFor(m: Registry, socketId: string) {
    forall k :: 0 <= k < |m| ==> m[k].socketId != socketId
  }

  /** `i` is the first position, in iteration order, whose value is `socketId`. */
  predicate FirstWithSocket(m: Registry, socketId: string, i: int) {
    0 <= i < |m| && m[i].socketId == socketId &&
    forall k :: 0 <= k < i ==> m[k].socketId != socketId
  }

  /** `removeUserSocket`: walks the entries in order and deletes the first
      one whose value is `socketId`, then stops. */
  method RemoveUserSocket(m: Registry, socketId: string) returns (r: Registry)
    ensures NoEntryFor(m, socketId) ==> r == m
    ensures forall i :: FirstWithSocket(m, socketId, i) ==> r == m[..i] + m[i + 1..]
  {
    var i := 0;
    while i < |m|
      invariant 0 <= i <= |m|
      invariant forall k :: 0 <= k < i ==> m[k].socketId != socketId
    {
      if m[i].socketId == socketId {
        r := m[..i] + m[i + 1..];
        assert FirstWithSocket(m, socketId, i);
        return;
      }
      i := i + 1;
    }
    r := m;
  }

  // ---------------------------------------------------------------------
  // The registry seen as a plain map

  /** The map the registry stands for. */
  function AsMap(m: Registry): (r: map<int, string>)
    requires KeysUnique(m)
    ensures forall u :: u in r <==> IndexOfUser(m, u).Some?
  {
    if |m| == 0 then map[]
    else AsMap(m[1..])[m[0].userId := m[0].socketId]
  }

  /** Lookup in the registry is lookup in the map it stands for. */
  lemma {:induction false} GetIsMapLookup(m: Registry, u: int)
    requires KeysUnique(m)
    ensures GetUserSocket(m, u) == (if u in AsMap(m) then Some(AsMap(m)[u]) else None)
    decreases |m|
  {
    if |m| > 0 && m[0].userId != u {
      GetIsMapLookup(m[1..], u);
      assert GetUserSocket(m, u) == GetUserSocket(m[1..], u);
    }
  }

  /** After `addUserSocket(u, s)`, `getUserSocket(u)` is `s`, and every
      other user's lookup is unchanged. */
  lemma AddThenGet(m: Registry, u: int, s: string, v: int)
    ensures GetUserSocket(AddUserSocket(m, u, s), u) == Some(s)
    ensures v != u ==> GetUserSocket(AddUserSocket(m, u, s), v) == GetUserSocket(m, v)
  {
    var r := AddUserSocket(m, u, s);
    match IndexOfUser(m, u)
    case Some(i) =>
      assert r[i] == Entry(u, s);
      assert IndexOfUser(r, u) == Some(i);
      if v != u {
        SameKeysSameIndex(m, r, v);
      }
    case None =>
      assert r[|m|] == Entry(u, s);
      assert IndexOfUser(r, u) == Some(|m|);
      if v != u {
        AppendKeepsIndex(m, Entry(u, s), v);
      }
  }

  /** Two registries whose entries agree except on `u`'s keep the same
      position for any other user. */
  lemma SameKeysSameIndex(m: Registry, r: Registry, v: int)
    requires |m| == |r|
    requires forall k :: 0 <= k < |m| ==> (m[k].userId == v <==> r[k].userId == v)
    requires forall k :: 0 <= k < |m| && m[k].userId == v ==> r[k] == m[k]
    ensures GetUserSocket(r, v) == GetUserSocket(m, v)
  {
    match IndexOfUser(m, v)
    case None =>
      assert IndexOfUser(r, v).None?;
    case Some(i) =>
      assert IndexOfUser(r, v) == Some(i) by {
        var j := IndexOfUser(r, v);
        assert j.Some?;
        assert !(j.value < i) && !(i < j.value);
      }
  }

  lemma AppendKeepsIndex(m: Registry, e: Entry, v: int)
    requires e.userId != v
    ensures GetUserSocket(m + [e], v) == GetUserSocket(m, v)
  {
    var r := m + [e];
    match IndexOfUser(m, v)
    case None =>
      assert forall k :: 0 <= k < |r| ==> r[k].userId != v by {
        forall k | 0 <= k < |r| ensures r[k].userId != v {
          if k < |m| { assert r[k] == m[k]; }
        }
      }
    case Some(i) =>
      assert r[i] == m[i];
      var j := IndexOfUser(r, v);
      assert j.Some?;
      assert !(j.value < i) && !(i < j.value);
  }

  /** A user never added is not found. */
  lemma NeverAddedIsUndefined(m: Registry, u: int)
    requires forall k :: 0 <= k < |m| ==> m[k].userId != u
    ensures GetUserSocket(m, u).None?
  {
  }

  /** After removing the socket of the first entry that holds it, that
      user is undefined; every other entry survives in order, including a
      later entry holding the same socket id. */
  lemma RemoveDeletesOnlyTheFirst(m: Registry, s: string, i: int, r: Registry)
    requires KeysUnique(m)
    requires FirstWithSocket(m, s, i)
    requires r == m[..i] + m[i + 1..]
    ensures |r| == |m| - 1
    ensures KeysUnique(r)
    ensures GetUserSocket(r, m[i].userId).None?
    ensures forall k :: 0 <= k < |m| && k != i ==> m[k] in r
    ensures forall k :: i < k < |m| && m[k].socketId == s ==> GetUserSocket(r, m[k].userId) == Some(s)
  {
    forall k | 0 <= k < |m| && k != i
      ensures m[k] in r
    {
      if k < i { assert r[k] == m[k]; } else { assert r[k - 1] == m[k]; }
    }
    forall k | 0 <= k < |r|
      ensures r[k].userId != m[i].userId
    {
      if k < i { assert r[k] == m[k]; } else { assert r[k] == m[k + 1]; }
    }
    forall k | i < k < |m| && m[k].socketId == s
      ensures GetUserSocket(r, m[k].userId) == Some(s)
    {
      assert r[k - 1] == m[k];
      var j := IndexOfUser(r, m[k].userId);
      assert j.Some?;
      assert r[j.value].userId == m[k].userId;
      if j.value >= i { assert r[j.value] == m[j.value + 1]; }
    }
  }

  /** Seen as a map, `addUserSocket(u, s)` is the map update `[u := s]`. */
  lemma AddIsMapUpdate(m: Registry, u: int, s: string)
    requires KeysUnique(m)
    ensures AsMap(AddUserSocket(m, u, s)) == AsMap(m)[u := s]
  {
    var r := AddUserSocket(m, u, s);
    var a, b := AsMap(r), AsMap(m)[u := s];
    forall v | true
      ensures (v in a <==> v in b) && (v in a ==> a[v] == b[v])
    {
      GetIsMapLookup(r, v);
      GetIsMapLookup(m, v);
      AddThenGet(m, u, s, v);
    }
  }

  /** Removing the first entry holding `s` leaves every other user's
      lookup as it was. */
  lemma RemoveKeepsOtherLookups(m: Registry, s: string, i: int, r: Registry, v: int)
    requires KeysUnique(m)
    requires FirstWithSocket(m, s, i)
    requires r == m[..i] + m[i + 1..]
    requires v != m[i].userId
    ensures GetUserSocket(r, v) == GetUserSocket(m, v)
  {
    RemoveDeletesOnlyTheFirst(m, s, i, r);
    match IndexOfUser(m, v)
    case None =>
      forall k | 0 <= k < |r| ensures r[k].userId != v {
        if k < i { assert r[k] == m[k]; } else { assert r[k] == m[k + 1]; }
      }
    case Some(j) =>
      var k := if j < i then j else j - 1;
      assert r[k] == m[j];
      var jr := IndexOfUser(r, v);
      assert jr.Some?;
      assert jr.value == k;
  }

  /** Seen as a map, `removeUserSocket(s)` deletes the key of the first
      entry holding `s`, and only that key. */
  lemma RemoveIsMapDeletion(m: Registry, s: string, i: int, r: Registry)
    requires KeysUnique(m)
    requires FirstWithSocket(m, s, i)
    requires r == m[..i] + m[i + 1..]
    ensures KeysUnique(r)
    ensures AsMap(r) == AsMap(m) - {m[i].userId}
  {
    RemoveDeletesOnlyTheFirst(m, s, i, r);
    var a, b := AsMap(r), AsMap(m) - {m[i].userId};
    forall v | true
      ensures (v in a <==> v in b) && (v in a ==> a[v] == b[v])
    {
      GetIsMapLookup(r, v);
      GetIsMapLookup(m, v);
      if v != m[i].userId {
        RemoveKeepsOtherLookups(m, s, i, r, v);
      }
    }
  }
}

=== FILE: create_user_dto.dfy ===
/** The sign-up payload and its field constraints.

    A field holds whatever the client sent, which may not be a string.
    Length is counted in characters of the model's strings. Whether a
    string is an email address is not modelled: it is the parameter
    `isEmail`. */
module CreateUserDto {

  datatype Field = Str(s: string) | NotAString

  datatype CreateUser = CreateUser(username: Field, email: Field, password: Field)

  datatype FieldName = Username | Email | Password

  datatype Constraint = IsString | IsNotEmpty | Length | IsEmail

  /** One failed decorator on one field. */
  datatype Violation = Violation(field: FieldName, constraint: Constraint)

  const UsernameMin: nat := 3
  const UsernameMax: nat := 20
  const PasswordMin: nat := 8
  const PasswordMax: nat := 50

  /** The constraints a string-or-not value violates, for a field that
      carries `@IsString`, `@IsNotEmpty` and either `@Length(lo, hi)` or
      `@IsEmail`. */
  function FieldViolations(name: FieldName, v: Field, checkLength: bool, lo: nat, hi: nat,
                           isEmail: string -> bool): (vs: set<Violation>)
    ensures forall x :: x in vs ==> x.field == name
    ensures Violation(name, IsString) in vs <==> v.NotAString?
    ensures Violation(name, IsNotEmpty) in vs <==> v == Str("")
    ensures Violation(name, Length) in vs <==>
      checkLength && (v.NotAString? || !(lo <= |v.s| <= hi))
    ensures Violation(name, IsEmail) in vs <==>
      !checkLength && (v.NotAString? || !isEmail(v.s))
  {
    match v
    case NotAString =>
      {Violation(name, IsString), Violation(name, if checkLength then Length else IsEmail)}
    case Str(s) =>
      (if s == "" then {Violation(name, IsNotEmpty)} else {}) +
      (if checkLength && !(lo <= |s| <= hi) then {Violation(name, Length)} else {}) +
      (if !checkLength && !isEmail(s) then {Violation(name, IsEmail)} else {})
  }

  /** Every constraint the payload violates: each field's violations are
      exactly those of its own decorators. */
  function Violations(d: CreateUser, isEmail: string -> bool): (vs: set<Violation>)
    ensures forall x: Violation :: x.field == Username ==>
      (x in vs <==> x in FieldViolations(Username, d.username, true, UsernameMin, UsernameMax, isEmail))
    ensures forall x: Violation :: x.field == Email ==>
      (x in vs <==> x in FieldViolations(Email, d.email, false, 0, 0, isEmail))
    ensures forall x: Violation :: x.field == Password ==>
      (x in vs <==> x in FieldViolations(Password, d.password, true, PasswordMin, PasswordMax, isEmail))
  {
    FieldViolations(Username, d.username, true, UsernameMin, UsernameMax, isEmail) +
    FieldViolations(Email, d.email, false, 0, 0, isEmail) +
    FieldViolations(Password, d.password, true, PasswordMin, PasswordMax, isEmail)
  }

  predicate UsernameOk(v: Field) {
    v.Str? && UsernameMin <= |v.s| <= UsernameMax
  }

  predicate EmailOk(v: Field, isEmail: string -> bool) {
    v.Str? && v.s != "" && isEmail(v.s)
  }

  predicate PasswordOk(v: Field) {
    v.Str? && PasswordMin <= |v.s| <= PasswordMax
  }

  /** The declared properties pass validation when no constraint fails;
      this happens exactly when each field passes its own check. */
  predicate Accepted(d: CreateUser, isEmail: string -> bool)
    ensures Accepted(d, isEmail) <==>
      UsernameOk(d.username) && EmailOk(d.email, isEmail) && PasswordOk(d.password)
  {
    Violations(d, isEmail) == {}
  }

  /** The empty string is refused in every field. */
  lemma EmptyStringRejected(d: CreateUser, isEmail: string -> bool)
    requires d.username == Str("") || d.email == Str("") || d.password == Str("")
    ensures !Accepted(d, isEmail)
  {
  }

  /** The length bounds are inclusive at both ends. */
  lemma LengthBoundsInclusive(u: string, p: string)
    ensures |u| == UsernameMin || |u| == UsernameMax ==> UsernameOk(Str(u))
    ensures |u| == UsernameMin - 1 || |u| == UsernameMax + 1 ==> !UsernameOk(Str(u))
    ensures |p| == PasswordMin || |p| == PasswordMax ==> PasswordOk(Str(p))
    ensures |p| == PasswordMin - 1 || |p| == PasswordMax + 1 ==> !PasswordOk(Str(p))
  {
  }
}

=== FILE: game_state.dfy ===
/** The pong simulation of one match: a ball, two paddles, two scores and
    two player slots, advanced one tick at a time.

    Coordinates and velocities are exact reals (the program uses IEEE
    doubles); time is whole milliseconds. The wall clock is not read: the
    caller passes the current time `now` to `Update`. */
module GameState {
  import opened Wrappers

  /* Playfield geometry and tuning constants of the simulation. */
  const HalfWidth: real := 20.0        // goal lines at x = -20 and x = 20
  const HalfHeight: real := 16.0       // walls at y = -16 and y = 16
  const PaddleLimit: real := 13.0      // a paddle centre stays in [-13, 13]
  const PaddleReach: real := 2.0       // vertical half-extent used by the hit test
  const BounceCooldown: int := 150     // milliseconds without a further bounce
  const SpeedUp: real := 1.1           // a paddle hit speeds the ball up by 10%

  datatype Ball = Ball(x: real, y: real, dx: real, dy: real, radius: real)

  datatype Paddle = Paddle(x: real, y: real, width: real, height: real, dy: real)

  /** A pair of per-player counters (points or games won). */
  datatype Tally = Tally(playerOne: int, playerTwo: int)

  datatype Game = Game(
    ball: Ball,
    paddle1: Paddle,
    paddle2: Paddle,
    gamesWon: Tally,
    score: Tally,
    playerOne: Option<string>,
    playerTwo: Option<string>,
    bounceCooldown: int,
    lastUpdateTime: int)

  /** The ball as it is served after every goal and at construction. */
  const Served: Ball := Ball(0.0, 0.0, 0.2, 0.2, 0.5)

  const LeftPaddle: Paddle := Paddle(-14.0, 0.0, 1.0, 4.0, 0.0)
  const RightPaddle: Paddle := Paddle(14.0, 0.0, 1.0, 4.0, 0.0)

  /** A paddle that has only ever been moved by `UpdatePlayerPosition`. */
  predicate PaddleOk(p: Paddle, home: Paddle) {
    p == home.(y := p.y) && -PaddleLimit <= p.y <= PaddleLimit
  }

  /** What holds of every game reachable from `Init`: fixed geometry, the
      served radius, paddles inside their limits, non-negative counters, and
      the ball inside the goal lines. */
  predicate Valid(g: Game) {
    && g.ball.radius == Served.radius
    && PaddleOk(g.paddle1, LeftPaddle)
    && PaddleOk(g.paddle2, RightPaddle)
    && g.score.playerOne >= 0 && g.score.playerTwo >= 0
    && g.gamesWon.playerOne >= 0 && g.gamesWon.playerTwo >= 0
    && InsideGoalLines(g.ball)
  }

  predicate InsideGoalLines(b: Ball) {
    -HalfWidth <= b.x - b.radius && b.x + b.radius <= HalfWidth
  }

  // ---------------------------------------------------------------------
  // Construction and serving

  /** The constructor: served ball, paddles at their home positions, zero
      counters, no players, no cooldown, clock started at `now`. */
  function Init(now: int): (g: Game)
    ensures Valid(g)
    ensures g.score == Tally(0, 0) && g.gamesWon == Tally(0, 0)
    ensures g.ball == Served && g.bounceCooldown == 0 && g.lastUpdateTime == now
    ensures g.paddle1 == LeftPaddle && g.paddle2 == RightPaddle
    ensures GetPlayerCount(g) == 0 && IsEmpty(g)
    ensures forall id :: !HasPlayer(g, id)
  {
    Game(Served, LeftPaddle, RightPaddle, Tally(0, 0), Tally(0, 0), None, None, 0, now)
  }

  /** Puts the ball back on the centre spot with the fixed serve, changing
      nothing else. */
  function ResetBall(g: Game): (r: Game)
    ensures r.ball.x == 0.0 && r.ball.y == 0.0 && InsideGoalLines(r.ball)
    ensures r.ball.dx == 0.2 && r.ball.dy == 0.2 && r.ball.radius == 0.5
    ensures r == g.(ball := r.ball)
  {
    g.(ball := Served)
  }

  // ---------------------------------------------------------------------
  // Paddle input

  /** The paddle clamp of the move handler. */
  function Clamp(y: real): (c: real)
    ensures -PaddleLimit <= c <= PaddleLimit
    ensures -PaddleLimit <= y <= PaddleLimit <==> c == y
    ensures y < -PaddleLimit ==> c == -PaddleLimit
    ensures y > PaddleLimit ==> c == PaddleLimit
  {
    var lo := if y < -PaddleLimit then -PaddleLimit else y;
    if lo > PaddleLimit then PaddleLimit else lo
  }

  /** Moves the paddle of the player `userId` to `y`, clamped. The first
      slot wins when both slots hold the same id; an unknown id is ignored. */
  function UpdatePlayerPosition(g: Game, userId: string, y: real): (r: Game)
    ensures g.playerOne == Some(userId) ==>
      r == g.(paddle1 := r.paddle1) && r.paddle1 == g.paddle1.(y := Clamp(y))
    ensures g.playerOne != Some(userId) && g.playerTwo == Some(userId) ==>
      r == g.(paddle2 := r.paddle2) && r.paddle2 == g.paddle2.(y := Clamp(y))
    ensures !HasPlayer(g, userId) ==> r == g
    ensures Valid(g) ==> Valid(r)
  {
    if g.playerOne == Some(userId) then
      g.(paddle1 := g.paddle1.(y := Clamp(y)))
    else if g.playerTwo == Some(userId) then
      g.(paddle2 := g.paddle2.(y := Clamp(y)))
    else
      g
  }

  // ---------------------------------------------------------------------
  // One tick, stage by stage

  /** Moves the ball by one velocity step; the step ignores elapsed time. */
  function Advance(b: Ball): (m: Ball)
    ensures m.x - b.x == b.dx && m.y - b.y == b.dy
    ensures m == b.(x := m.x, y := m.y)
  {
    b.(x := b.x + b.dx, y := b.y + b.dy)
  }

  /** The cooldown after `dt` milliseconds: it only runs while positive. */
  function Decay(cooldown: int, dt: int): (c: int)
    ensures cooldown <= 0 ==> c == cooldown
    ensures cooldown > 0 ==> cooldown - c == dt
  {
    if cooldown > 0 then cooldown - dt else cooldown
  }

  predicate HitsWall(b: Ball) {
    b.y - b.radius < -HalfHeight || b.y + b.radius > HalfHeight
  }

  predicate HitsPaddleOne(b: Ball, p: Paddle) {
    && b.x - b.radius < p.x + p.width
    && b.y > p.y - PaddleReach
    && b.y < p.y + p.height - PaddleReach
  }

  predicate HitsPaddleTwo(b: Ball, p: Paddle) {
    && b.x + b.radius > p.x
    && b.y > p.y - PaddleReach
    && b.y < p.y + p.height - PaddleReach
  }

  /** Ball and cooldown after the collision checks of a tick. */
  datatype Motion = Motion(ball: Ball, cooldown: int)

  /** The collision checks of one tick, in the program's order: the wall
      check, then paddle one, else paddle two. Each check needs an expired
      cooldown and re-arms it, so a bounce blocks every later check of the
      same tick. The contract is the flat decision table that results. */
  function Reflect(b: Ball, cooldown: int, p1: Paddle, p2: Paddle): (m: Motion)
    ensures m.ball.x == b.x && m.ball.y == b.y && m.ball.radius == b.radius
    ensures cooldown > 0 ==> m == Motion(b, cooldown)
    ensures cooldown <= 0 && HitsWall(b) ==>
      m == Motion(b.(dy := -b.dy), BounceCooldown)
    ensures cooldown <= 0 && !HitsWall(b) && (HitsPaddleOne(b, p1) || HitsPaddleTwo(b, p2)) ==>
      m == Motion(b.(dx := -SpeedUp * b.dx), BounceCooldown)
    ensures cooldown <= 0 && !HitsWall(b) && !HitsPaddleOne(b, p1) && !HitsPaddleTwo(b, p2) ==>
      m == Motion(b, cooldown)
  {
    var afterWall :=
      if cooldown <= 0 && HitsWall(b) then Motion(b.(dy := b.dy * -1.0), BounceCooldown)
      else Motion(b, cooldown);
    var w := afterWall.ball;
    if HitsPaddleOne(w, p1) && afterWall.cooldown <= 0 then
      Motion(w.(dx := w.dx * -SpeedUp), BounceCooldown)
    else if HitsPaddleTwo(w, p2) && afterWall.cooldown <= 0 then
      Motion(w.(dx := w.dx * -SpeedUp), BounceCooldown)
    else
      afterWall
  }

  /** The goal check: a ball past the left line scores for player two,
      otherwise a ball past the right line scores for player one; either
      goal re-serves the ball. */
  function AwardGoal(g: Game): (r: Game)
    ensures InsideGoalLines(r.ball)
    ensures r.score == g.score || r.score == g.score.(playerOne := g.score.playerOne + 1)
                               || r.score == g.score.(playerTwo := g.score.playerTwo + 1)
    ensures r.score != g.score <==> !InsideGoalLines(g.ball)
    ensures r.score != g.score ==> r == g.(score := r.score, ball := Served)
    ensures r.score == g.score ==> r == g
    // the left line is player two's goal, the right line player one's
    ensures g.ball.x - g.ball.radius < -HalfWidth ==>
      r.score == g.score.(playerTwo := g.score.playerTwo + 1)
    ensures -HalfWidth <= g.ball.x - g.ball.radius && g.ball.x + g.ball.radius > HalfWidth ==>
      r.score == g.score.(playerOne := g.score.playerOne + 1)
  {
    if g.ball.x - g.ball.radius < -HalfWidth then
      ResetBall(g.(score := g.score.(playerTwo := g.score.playerTwo + 1)))
    else if g.ball.x + g.ball.radius > HalfWidth then
      ResetBall(g.(score := g.score.(playerOne := g.score.playerOne + 1)))
    else
      g
  }

  /** The ball and cooldown of `g` after the move and collision stages of a
      tick at time `now`, before the goal check. */
  function Moved(g: Game, now: int): Motion {
    Reflect(Advance(g.ball), Decay(g.bounceCooldown, now - g.lastUpdateTime), g.paddle1, g.paddle2)
  }

  /** One tick of the simulation at wall-clock time `now`. */
  function Update(g: Game, now: int): (r: Game)
    // the clock, the players, the paddles and the games won are untouched
    ensures r.lastUpdateTime == now
    ensures r.playerOne == g.playerOne && r.playerTwo == g.playerTwo
    ensures r.paddle1 == g.paddle1 && r.paddle2 == g.paddle2 && r.gamesWon == g.gamesWon
    // the ball always ends inside the goal lines
    ensures InsideGoalLines(r.ball)
    // a goal on the left scores one for player two and re-serves
    ensures g.ball.x + g.ball.dx - g.ball.radius < -HalfWidth ==>
      r.score == g.score.(playerTwo := g.score.playerTwo + 1) && r.ball == Served
    // otherwise a goal on the right scores one for player one and re-serves
    ensures -HalfWidth <= g.ball.x + g.ball.dx - g.ball.radius &&
            g.ball.x + g.ball.dx + g.ball.radius > HalfWidth ==>
      r.score == g.score.(playerOne := g.score.playerOne + 1) && r.ball == Served
    // no goal: scores unchanged, the ball has moved by exactly one velocity step
    ensures InsideGoalLines(Advance(g.ball)) ==>
      && r.score == g.score
      && r.ball.x == g.ball.x + g.ball.dx && r.ball.y == g.ball.y + g.ball.dy
      && r.ball.radius == g.ball.radius
    // the cooldown is re-armed by a bounce or else has decayed
    ensures r.bounceCooldown == BounceCooldown ||
            r.bounceCooldown == Decay(g.bounceCooldown, now - g.lastUpdateTime)
    // the goal check keeps the collision stage's cooldown, and with no goal
    // the ball is the collision stage's too
    ensures r.bounceCooldown == Moved(g, now).cooldown
    ensures InsideGoalLines(Advance(g.ball)) ==> r.ball == Moved(g, now).ball
  {
    var m := Moved(g, now);
    AwardGoal(g.(ball := m.ball, bounceCooldown := m.cooldown, lastUpdateTime := now))
  }

  // ---------------------------------------------------------------------
  // Player slots

  /** `Boolean(slot)` in the program: `null` and `""` are both falsy. */
  predicate Truthy(slot: Option<string>) {
    slot.Some? && slot.value != ""
  }

  /** `slots.filter(Boolean).length`. */
  function CountTruthy(slots: seq<Option<string>>): (n: nat)
    ensures n <= |slots|
    ensures n == 0 <==> forall i :: 0 <= i < |slots| ==> !Truthy(slots[i])
    ensures n == |slots| <==> forall i :: 0 <= i < |slots| ==> Truthy(slots[i])
  {
    if |slots| == 0 then 0
    else (if Truthy(slots[0]) then 1 else 0) + CountTruthy(slots[1..])
  }

  function GetPlayerCount(g: Game): (n: nat)
    ensures n <= 2
    ensures n == 0 <==> !Truthy(g.playerOne) && !Truthy(g.playerTwo)
    ensures n == 2 <==> Truthy(g.playerOne) && Truthy(g.playerTwo)
  {
    CountTruthy([g.playerOne, g.playerTwo])
  }

  predicate IsEmpty(g: Game)
    ensures IsEmpty(g) <==> !Truthy(g.playerOne) && !Truthy(g.playerTwo)
  {
    GetPlayerCount(g) == 0
  }

  /** Strict comparison against both slots; unlike the count, an empty-string
      slot does match the id `""`. A held non-empty id is always counted, so
      only `""` can be held by an empty game. */
  predicate HasPlayer(g: Game, id: string)
    ensures HasPlayer(g, id) && id != "" ==> GetPlayerCount(g) >= 1 && !IsEmpty(g)
    ensures HasPlayer(g, id) && IsEmpty(g) ==> id == ""
  {
    g.playerOne == Some(id) || g.playerTwo == Some(id)
  }

  // ---------------------------------------------------------------------
  // Properties relating several operations

  /** A slot holding `""` is matched by `hasPlayer("")` yet is not counted:
      a game can be empty and still "have" a player. */
  lemma EmptyStringSlotIsHeldButNotCounted(g: Game)
    requires g.playerOne == Some("") && g.playerTwo == None
    ensures HasPlayer(g, "") && IsEmpty(g) && GetPlayerCount(g) == 0
  {
  }

  /** Example use of the serve: resetting twice is resetting once, and the
      served ball does not depend on where the ball was. */
  lemma ResetBallIdempotent(g: Game, b: Ball)
    ensures ResetBall(ResetBall(g)) == ResetBall(g)
    ensures ResetBall(g.(ball := b)) == ResetBall(g)
  {
  }

  /** At most one reflection per tick: the collision stage flips at most one
      velocity component, and any change re-arms the cooldown, which a
      change needs to have found expired. */
  lemma AtMostOneReflection(b: Ball, cooldown: int, p1: Paddle, p2: Paddle)
    ensures var m := Reflect(b, cooldown, p1, p2);
      && (m.ball.dx == b.dx || m.ball.dy == b.dy)
      && (m.ball != b ==> cooldown <= 0 && m.cooldown == BounceCooldown)
      && (m.ball.dy != b.dy ==> m.ball.dy == -b.dy)
      && (m.ball.dx != b.dx ==> m.ball.dx == -SpeedUp * b.dx)
  {
  }

  /** A tick keeps every invariant of a reachable game. */
  lemma UpdatePreservesValid(g: Game, now: int)
    requires Valid(g)
    ensures Valid(Update(g, now))
    ensures Update(g, now).ball.radius == g.ball.radius
  {
  }

  /** Scores move by a goal at a time: a tick adds at most one point in
      total, never takes one away, and adds it to exactly one side. */
  lemma UpdateScoresByOneGoal(g: Game, now: int)
    ensures var r := Update(g, now);
      && r.score.playerOne >= g.score.playerOne
      && r.score.playerTwo >= g.score.playerTwo
      && TotalPoints(r.score) - TotalPoints(g.score) <= 1
      && (r.score != g.score ==> r.ball == Served)
  {
    var m := Moved(g, now);
    var mid := g.(ball := m.ball, bounceCooldown := m.cooldown, lastUpdateTime := now);
    assert Update(g, now) == AwardGoal(mid);
  }

  function TotalPoints(t: Tally): int {
    t.playerOne + t.playerTwo
  }

  /** The game after one tick at each of the given times, in order. */
  function Run(g: Game, times: seq<int>): Game
    decreases |times|
  {
    if |times| == 0 then g else Run(Update(g, times[0]), times[1..])
  }

  /** Over any number of ticks: the invariants hold, the players, paddles
      and games won never change, scores never decrease, and at most one
      point is scored per tick. */
  lemma {:induction false} RunKeepsInvariants(g: Game, times: seq<int>)
    requires Valid(g)
    ensures var r := Run(g, times);
      && Valid(r)
      && r.playerOne == g.playerOne && r.playerTwo == g.playerTwo
      && r.paddle1 == g.paddle1 && r.paddle2 == g.paddle2
      && r.gamesWon == g.gamesWon
      && r.score.playerOne >= g.score.playerOne
      && r.score.playerTwo >= g.score.playerTwo
      && TotalPoints(r.score) <= TotalPoints(g.score) + |times|
    decreases |times|
  {
    if |times| > 0 {
      var g1 := Update(g, times[0]);
      UpdatePreservesValid(g, times[0]);
      UpdateScoresByOneGoal(g, times[0]);
      RunKeepsInvariants(g1, times[1..]);
    }
  }
}

=== FILE: session_store.dfy ===
/** The front end's session store: two authentication flags, the current
    user and the live socket. The user object and the socket are left uninterpreted
    (type parameters `U` and `S`); `None` stands for `null`. */
module SessionStore {
  import opened Wrappers

  datatype State<U, S> = State(
    isAuthenticated: bool,
    isLoggedIn: bool,
    currentUser: Option<U>,
    socket: Option<S>)

  /** The store's commits: the four mutations. */
  datatype Mutation<U, S> =
    | Login
    | Logout
    | SetUser(user: Option<U>)
    | SetSocket(sock: Option<S>)

  /** The two flags always agree. */
  predicate Consistent<U, S>(st: State<U, S>) {
    st.isAuthenticated == st.isLoggedIn
  }

  /** The store's initial state. */
  function Initial<U, S>(): (st: State<U, S>)
    ensures Consistent(st) && !IsAuthenticated(st) && !IsLoggedIn(st)
    ensures st.currentUser.None? && st.socket.None?
  {
    State(false, false, None, None)
  }

  /** Mutation `login`: raises both flags. */
  function DoLogin<U, S>(st: State<U, S>): (r: State<U, S>)
    ensures IsAuthenticated(r) && IsLoggedIn(r) && Consistent(r)
    ensures r.currentUser == st.currentUser && r.socket == st.socket
  {
    st.(isAuthenticated := true, isLoggedIn := true)
  }

  /** Mutation `logout`: lowers both flags and clears user and socket. The
      second result is the socket whose `disconnect()` is called, if any. */
  function DoLogout<U, S>(st: State<U, S>): (r: (State<U, S>, Option<S>))
    ensures r.0 == Initial()
    ensures r.1 == st.socket
  {
    (State(false, false, None, None), st.socket)
  }

  /** Mutation `SET_USER`. */
  function DoSetUser<U, S>(st: State<U, S>, user: Option<U>): (r: State<U, S>)
    ensures r.currentUser == user
    ensures r.isAuthenticated == st.isAuthenticated && r.isLoggedIn == st.isLoggedIn
    ensures r.socket == st.socket
  {
    st.(currentUser := user)
  }

  /** Mutation `SET_SOCKET`. */
  function DoSetSocket<U, S>(st: State<U, S>, sock: Option<S>): (r: State<U, S>)
    ensures r.socket == sock
    ensures r.isAuthenticated == st.isAuthenticated && r.isLoggedIn == st.isLoggedIn
    ensures r.currentUser == st.currentUser
  {
    st.(socket := sock)
  }

  /** `commit(m)`: the state after one mutation. */
  function Commit<U, S>(st: State<U, S>, m: Mutation<U, S>): (r: State<U, S>)
    ensures Consistent(st) ==> Consistent(r)
  {
    match m
    case Login => DoLogin(st)
    case Logout => DoLogout(st).0
    case SetUser(u) => DoSetUser(st, u)
    case SetSocket(s) => DoSetSocket(st, s)
  }

  /** The state after committing the mutations in order. */
  function Replay<U, S>(st: State<U, S>, ms: seq<Mutation<U, S>>): State<U, S>
    decreases |ms|
  {
    if |ms| == 0 then st else Replay(Commit(st, ms[0]), ms[1..])
  }

  /** Every history of commits from a consistent state keeps the flags
      equal, and commits of the user and the socket alone never move them. */
  lemma {:induction false} ReplayConsistent<U, S>(st: State<U, S>, ms: seq<Mutation<U, S>>)
    requires Consistent(st)
    ensures Consistent(Replay(st, ms))
    ensures (forall i :: 0 <= i < |ms| ==> ms[i].SetUser? || ms[i].SetSocket?) ==>
      Replay(st, ms).isLoggedIn == st.isLoggedIn
    decreases |ms|
  {
    if |ms| > 0 {
      ReplayConsistent(Commit(st, ms[0]), ms[1..]);
      if forall i :: 0 <= i < |ms| ==> ms[i].SetUser? || ms[i].SetSocket? {
        assert forall i :: 0 <= i < |ms[1..]| ==> ms[1..][i] == ms[i + 1];
      }
    }
  }

  /** Getter `isAuthenticated`: in every state the mutations can reach it
      reports the same as the `isLoggedIn` flag. */
  predicate IsAuthenticated<U, S>(st: State<U, S>)
    ensures Consistent(st) ==> (IsAuthenticated(st) <==> st.isLoggedIn)
  {
    st.isAuthenticated
  }

  /** Getter `isLoggedIn`: in every state the mutations can reach it
      reports the same as the `isAuthenticated` flag. */
  predicate IsLoggedIn<U, S>(st: State<U, S>)
    ensures Consistent(st) ==> (IsLoggedIn(st) <==> st.isAuthenticated)
  {
    st.isLoggedIn
  }

  /** Action `logIn(user)`: commits `SET_USER` and then `login`. */
  function LogIn<U, S>(st: State<U, S>, user: U): (r: State<U, S>)
    ensures IsAuthenticated(r) && IsLoggedIn(r)
    ensures r.currentUser == Some(user) && r.socket == st.socket
  {
    Commit(Commit(st, SetUser(Some(user))), Login)
  }

  /** Action `logOut()`: commits `logout`. */
  function LogOut<U, S>(st: State<U, S>): (r: State<U, S>)
    ensures r == Initial()
    ensures !IsAuthenticated(r) && !IsLoggedIn(r)
  {
    Commit(st, Logout)
  }

  /** Logging out after logging in returns to the initial state, whatever
      the state before. */
  lemma LogOutUndoesLogIn<U, S>(st: State<U, S>, user: U)
    ensures LogOut(LogIn(st, user)) == Initial()
    ensures LogOut(LogIn(st, user)) == LogOut(st)
  {
  }
}

=== FILE: socket_manager.dfy ===
/** The socket manager's registry from user id to live socket. Sockets are
    uninterpreted here (type parameter `S`); only lookup, overwrite and deletion
    matter, so a plain map models the JavaScript `Map`. */
module SocketManager {
  import opened Wrappers

  type SocketMap<S> = map<int, S>

  /** `getUserSocket`: the socket of `userId`, or undefined. */
  function GetUserSocket<S>(m: SocketMap<S>, userId: int): (r: Option<S>)
    ensures r.Some? <==> userId in m
    ensures r.Some? ==> m[userId] == r.value
  {
    if userId in m then Some(m[userId]) else None
  }

  /** `setUserSocket`: stores `socket` for `userId`, replacing any previous one. */
  function SetUserSocket<S>(m: SocketMap<S>, userId: int, socket: S): (r: SocketMap<S>)
    ensures r.Keys == m.Keys + {userId}
    ensures GetUserSocket(r, userId) == Some(socket)
    ensures forall u :: u in m && u != userId ==> u in r && r[u] == m[u]
  {
    m[userId := socket]
  }

  /** `removeUserSocket`: forgets `userId`'s socket, if there is one. */
  function RemoveUserSocket<S>(m: SocketMap<S>, userId: int): (r: SocketMap<S>)
    ensures r.Keys == m.Keys - {userId}
    ensures GetUserSocket(r, userId).None?
    ensures forall u :: u in r ==> r[u] == m[u]
  {
    m - {userId}
  }

  /** Setting one user's socket never changes another user's lookup. */
  lemma SetKeepsOthers<S>(m: SocketMap<S>, u: int, s: S, v: int)
    requires v != u
    ensures GetUserSocket(SetUserSocket(m, u, s), v) == GetUserSocket(m, v)
  {
  }

  /** Removing an absent user is a no-op, and removal after setting undoes
      the set for a user that was absent before. */
  lemma RemoveUndoesSet<S>(m: SocketMap<S>, u: int, s: S)
    ensures u !in m ==> RemoveUserSocket(m, u) == m
    ensures u !in m ==> RemoveUserSocket(SetUserSocket(m, u, s), u) == m
  {
  }

  /** Removing one user never changes another user's lookup. */
  lemma RemoveKeepsOthers<S>(m: SocketMap<S>, u: int, v: int)
    requires v != u
    ensures GetUserSocket(RemoveUserSocket(m, u), v) == GetUserSocket(m, v)
  {
  }
}

=== FILE: user_service.dfy ===
/** The user service's operations over the user table.

    The table is a sequence of rows. A `findFirst` query without `orderBy`
    may return any matching row, in an order the database does not fix; the
    model resolves that choice by taking the first match in sequence order,
    so properties that name "the first matching row" hold for that choice.
    Only the columns the operations
    read or write are modelled. Every operation that reaches the database
    returns a `Result`: `Err` stands for the exception the call throws. */
module UserService {
  import opened Wrappers

  datatype User = User(
    id: int,
    username: string,
    email: string,
    password: string,
    pending: seq<int>,     // ids of users with an outstanding friend request
    isInGame: bool)

  type Table = seq<User>

  datatype UserError =
    | InvalidIds        // Error('Invalid user IDs provided')
    | TargetNotFound    // BadRequestException('Target user not found')
    | UserNotFound      // Error('User not found')
    | RecordNotFound    // the database's own error when an update matches no row
    | NotFound(id: int) // NotFoundException(`User with ID ${id} not found.`)

  datatype FriendMessage = RequestAlreadySent | RequestSent

  /** Ids are the table's primary key. */
  predicate IdsUnique(t: Table) {
    forall i, j :: 0 <= i < j < |t| ==> t[i].id != t[j].id
  }

  // ---------------------------------------------------------------------
  // Lookups

  /** The position of the row with this id, if any. */
  function IndexOfId(t: Table, id: int): (r: Option<nat>)
    ensures r.Some? ==> r.value < |t| && t[r.value].id == id
    ensures r.None? <==> forall k :: 0 <= k < |t| ==> t[k].id != id
    ensures r.Some? ==> forall k :: 0 <= k < r.value ==> t[k].id != id
  {
    if |t| == 0 then None
    else if t[0].id == id then Some(0)
    else match IndexOfId(t[1..], id)
      case None => None
      case Some(i) => Some(i + 1)
  }

  /** With unique ids, the row found is the only row with that id. */
  lemma IndexOfIdIsUnique(t: Table, id: int, k: int)
    requires IdsUnique(t)
    requires 0 <= k < |t| && t[k].id == id
    ensures IndexOfId(t, id) == Some(k)
  {
  }

  /** The row found is the first one carrying the id. */
  lemma FirstIdAt(t: Table, id: int, i: int)
    requires 0 <= i < |t| && t[i].id == id
    requires forall k :: 0 <= k < i ==> t[k].id != id
    ensures IndexOfId(t, id) == Some(i)
  {
    var j := IndexOfId(t, id);
    assert j.Some?;
    assert !(j.value < i);
    assert !(i < j.value);
  }

  /** `getUserById`: the row with this id, or null. */
  function GetUserById(t: Table, id: int): (r: Option<User>)
    ensures r.Some? <==> exists k :: 0 <= k < |t| && t[k].id == id
    ensures r.Some? ==> r.value in t && r.value.id == id
  {
    match IndexOfId(t, id)
    case None => None
    case Some(i) => Some(t[i])
  }

  /** The row matches a login given as username or as email. */
  predicate MatchesLogin(u: User, login: string) {
    u.username == login || u.email == login
  }

  /** The position of the first row matching `login`, if any. */
  function IndexOfLogin(t: Table, login: string): (r: Option<nat>)
    ensures r.Some? ==> r.value < |t| && MatchesLogin(t[r.value], login)
    ensures r.Some? ==> forall k :: 0 <= k < r.value ==> !MatchesLogin(t[k], login)
    ensures r.None? <==> forall k :: 0 <= k < |t| ==> !MatchesLogin(t[k], login)
  {
    if |t| == 0 then None
    else if MatchesLogin(t[0], login) then Some(0)
    else match IndexOfLogin(t[1..], login)
      case None => None
      case Some(i) => Some(i + 1)
  }

  /** `getUserForAuth`: the first row whose username or email equals the
      argument, or null. */
  function GetUserForAuth(t: Table, login: string): (r: Option<User>)
    ensures r.None? <==> forall k :: 0 <= k < |t| ==> !MatchesLogin(t[k], login)
    ensures r.Some? ==> r.value in t && MatchesLogin(r.value, login)
  {
    match IndexOfLogin(t, login)
    case None => None
    case Some(i) => Some(t[i])
  }

  /** `getUserByUsernameOrEmail`: the same query, written as a scan over
      the rows in sequence order. */
  method GetUserByUsernameOrEmail(t: Table, login: string) returns (r: Option<User>)
    ensures r == GetUserForAuth(t, login)
  {
    var i := 0;
    while i < |t|
      invariant 0 <= i <= |t|
      invariant forall k :: 0 <= k < i ==> !MatchesLogin(t[k], login)
    {
      if MatchesLogin(t[i], login) {
        assert IndexOfLogin(t, login) == Some(i);
        return Some(t[i]);
      }
      i := i + 1;
    }
    return None;
  }

  // ---------------------------------------------------------------------
  // Updates

  /** `addUserAsFriend(targetId, userId)`: records a friend request from
      `userId` on the target's pending list, once. Zero ids are falsy and
      refused before the table is read. */
  function AddUserAsFriend(t: Table, targetId: int, userId: int): (r: Result<(Table, FriendMessage), UserError>)
    ensures targetId == 0 || userId == 0 ==> r == Err(InvalidIds)
    ensures targetId != 0 && userId != 0 && GetUserById(t, targetId).None? ==> r == Err(TargetNotFound)
    ensures r.Err? ==> r.error == InvalidIds || r.error == TargetNotFound
    ensures r.Ok? && r.value.1 == RequestAlreadySent ==> r.value.0 == t
    ensures r.Ok? ==> |r.value.0| == |t| && (IdsUnique(t) ==> IdsUnique(r.value.0))
    ensures r.Ok? ==> var target := GetUserById(t, targetId);
      target.Some? &&
      (r.value.1 == RequestAlreadySent <==> userId in target.value.pending)
  {
    if targetId == 0 || userId == 0 then Err(InvalidIds)
    else match IndexOfId(t, targetId)
      case None => Err(TargetNotFound)
      case Some(i) =>
        if userId in t[i].pending then Ok((t, RequestAlreadySent))
        else Ok((t[i := t[i].(pending := t[i].pending + [userId])], RequestSent))
  }

  /** A sent request appends the sender at the end of the target's pending
      list and changes no other row and no other column. */
  lemma FriendRequestAppends(t: Table, targetId: int, userId: int)
    requires IdsUnique(t)
    requires AddUserAsFriend(t, targetId, userId).Ok?
    requires AddUserAsFriend(t, targetId, userId).value.1 == RequestSent
    ensures var t' := AddUserAsFriend(t, targetId, userId).value.0;
      var before := GetUserById(t, targetId).value;
      && GetUserById(t', targetId) == Some(before.(pending := before.pending + [userId]))
      && forall k :: 0 <= k < |t| && t[k].id != targetId ==> t'[k] == t[k]
  {
    var i := IndexOfId(t, targetId).value;
    var t' := AddUserAsFriend(t, targetId, userId).value.0;
    IndexOfIdIsUnique(t', targetId, i);
  }

  /** Asking twice is asking once: the second call reports the request as
      already sent and leaves the table as the first call left it. */
  lemma FriendRequestIdempotent(t: Table, targetId: int, userId: int)
    requires IdsUnique(t)
    requires AddUserAsFriend(t, targetId, userId).Ok?
    ensures var t1 := AddUserAsFriend(t, targetId, userId).value.0;
      AddUserAsFriend(t1, targetId, userId) == Ok((t1, RequestAlreadySent))
  {
    var i := IndexOfId(t, targetId).value;
    var t1 := AddUserAsFriend(t, targetId, userId).value.0;
    IndexOfIdIsUnique(t1, targetId, i);
  }

  /** `getIsInGame`: the user's in-game flag; a missing user throws. */
  function GetIsInGame(t: Table, id: int): (r: Result<bool, UserError>)
    ensures r.Err? <==> GetUserById(t, id).None?
    ensures r.Err? ==> r.error == UserNotFound
    ensures r.Ok? ==> exists k :: 0 <= k < |t| && t[k].id == id && t[k].isInGame == r.value
  {
    match GetUserById(t, id)
    case None => Err(UserNotFound)
    case Some(u) => Ok(u.isInGame)
  }

  /** `setIsInGame`: sets the user's in-game flag. The update of a missing
      row fails in the database. */
  function SetIsInGame(t: Table, id: int, flag: bool): (r: Result<Table, UserError>)
    ensures r.Err? <==> GetUserById(t, id).None?
    ensures r.Err? ==> r.error == RecordNotFound
    ensures r.Ok? ==> |r.value| == |t| && (IdsUnique(t) ==> IdsUnique(r.value))
    ensures r.Ok? ==> forall k :: 0 <= k < |t| && t[k].id != id ==> r.value[k] == t[k]
    ensures r.Ok? ==> GetUserById(r.value, id) == Some(GetUserById(t, id).value.(isInGame := flag))
  {
    match IndexOfId(t, id)
    case None => Err(RecordNotFound)
    case Some(i) =>
      var t' := t[i := t[i].(isInGame := flag)];
      FirstIdAt(t', id, i);
      Ok(t')
  }

  /** Reading the flag after setting it gives the flag set, and no other
      user's flag changes. */
  lemma SetThenGetInGame(t: Table, id: int, flag: bool, other: int)
    requires IdsUnique(t)
    requires SetIsInGame(t, id, flag).Ok?
    ensures GetIsInGame(SetIsInGame(t, id, flag).value, id) == Ok(flag)
    ensures other != id ==> GetIsInGame(SetIsInGame(t, id, flag).value, other) == GetIsInGame(t, other)
  {
    var i := IndexOfId(t, id).value;
    var t' := SetIsInGame(t, id, flag).value;
    IndexOfIdIsUnique(t', id, i);
    if other != id {
      match IndexOfId(t, other)
      case None =>
        assert forall k :: 0 <= k < |t'| ==> t'[k].id == t[k].id;
      case Some(j) =>
        IndexOfIdIsUnique(t', other, j);
    }
  }

  /** `deleteUser`: removes the user's row and returns it; a missing id
      throws NotFound. */
  function DeleteUser(t: Table, id: int): (r: Result<(Table, User), UserError>)
    ensures r.Err? <==> GetUserById(t, id).None?
    ensures r.Err? ==> r.error == NotFound(id)
    ensures r.Ok? ==> Some(r.value.1) == GetUserById(t, id) && |r.value.0| == |t| - 1
    ensures r.Ok? && IdsUnique(t) ==> IdsUnique(r.value.0) && GetUserById(r.value.0, id).None?
    ensures r.Ok? ==> forall u :: u in t && u.id != id ==> u in r.value.0
  {
    match IndexOfId(t, id)
    case None => Err(NotFound(id))
    case Some(i) =>
      RemoveRow(t, i);
      Ok((t[..i] + t[i + 1..], t[i]))
  }

  /** Cutting row `i` out keeps every other row and, with unique ids,
      leaves no row with row `i`'s id. */
  lemma RemoveRow(t: Table, i: nat)
    requires i < |t|
    ensures |t[..i] + t[i + 1..]| == |t| - 1
    ensures forall u :: u in t && u.id != t[i].id ==> u in t[..i] + t[i + 1..]
    ensures IdsUnique(t) ==> IdsUnique(t[..i] + t[i + 1..])
    ensures IdsUnique(t) ==> GetUserById(t[..i] + t[i + 1..], t[i].id).None?
  {
    var t' := t[..i] + t[i + 1..];
    assert forall k :: 0 <= k < |t'| ==> t'[k] == t[if k < i then k else k + 1];
    forall u | u in t && u.id != t[i].id
      ensures u in t'
    {
      var k :| 0 <= k < |t| && t[k] == u;
      assert k != i;
      if k < i { assert t'[k] == u; } else { assert t'[k - 1] == u; }
    }
    if IdsUnique(t) {
      assert forall a, b :: 0 <= a < b < |t'| ==> t'[a].id != t'[b].id;
      assert forall k :: 0 <= k < |t'| ==> t'[k].id != t[i].id;
    }
  }

  /** Deletion keeps the relative order of the surviving rows: two rows
      without the deleted id appear in the result in the order they had. */
  lemma DeleteKeepsOrder(t: Table, id: int)
    requires DeleteUser(t, id).Ok?
    ensures var r := DeleteUser(t, id).value.0;
      forall a, b :: 0 <= a < b < |t| && t[a].id != id && t[b].id != id ==>
        exists a', b' :: 0 <= a' < b' < |r| && r[a'] == t[a] && r[b'] == t[b]
  {
    var i := IndexOfId(t, id).value;
    var r := DeleteUser(t, id).value.0;
    assert r == t[..i] + t[i + 1..];
    forall a, b | 0 <= a < b < |t| && t[a].id != id && t[b].id != id
      ensures exists a', b' :: 0 <= a' < b' < |r| && r[a'] == t[a] && r[b'] == t[b]
    {
      var a' := if a < i then a else a - 1;
      var b' := if b < i then b else b - 1;
      assert r[a'] == t[a] && r[b'] == t[b];
    }
  }
}

=== FILE: wrappers.dfy ===
/** Wrappers shared by every module of the model.
    `Option` stands for a JavaScript value that may be `null`/`undefined`;
    `Result` stands for a call that either returns or throws. */
module Wrappers {

  datatype Option<+T> = None | Some(value: T)

  datatype Result<+T, +E> = Ok(value: T) | Err(error: E)
}
